=== FILE: README.md ===
# Emitter dashboard: derived view, refresh, popup, session and login

A Dafny model of the logic inside a small React monitoring dashboard. The
dashboard polls a backend for "emitter" records (`idEmisor`, optional `name`,
nullable `fechaAlta`). It derives an `isActive` flag for each record and shows
a filtered, sorted list. Clicking a record opens a popup with its date.
Access is gated by a username/password check against a credential list fetched
from the server. The logged-in username is kept in `localStorage`.

Modules, following the program's structure:

- `Optional`: `Option`, the model of a value that may be `null`/`undefined`.
- `Text`: the string built-ins the code uses. These are `trim`, ASCII
  `toLowerCase`, `includes` and `String(n)` for integer identifiers. It also
  holds `LexLe`, a code-point order on strings, and `TotalPreorder`, the
  property any `localeCompare` stand-in must have.
- `Emitters`: the record types. `fechaAlta` is `Null | Undefined | EmptyStr |
  Stamp(ms)`, so the code's two tests of it can be told apart: strict
  `!== null` for `isActive`, JavaScript truthiness for the date filter and the
  popup. Also the normaliser `{...it, isActive}`.
- `RowSort`: the comparator (active first, then `localeCompare` of
  `String(idEmisor)`) and a stable insertion sort.
- `ViewFilter`: the memoised `filtered` pipeline. It normalises every record,
  then filters by status, by date range and by text, then sorts.
- `Dashboard`: the component state and its transitions. These are one
  completed `load`, `showModal`/`closeModal`, `toggleTheme`, and `fmt`.
- `Login`: `handleLogin`, with the hash function as a parameter `H`.
- `Session`: `App`'s `localStorage` gate: login, logout, start-up restore,
  and the render choice.

The `localeCompare` order is a parameter `le`. The ordering lemmas require it
to be a total preorder. `Text.LexLeIsTotalPreorder` shows code-point order is
one such order. Dates are whole milliseconds. A date input is a day number `d`.
Its bounds are `DayStart(d) = d * 86400000` and `DayEnd(d) = DayStart(d) +
86399999`.

Behaviours of the code worth knowing, which the model keeps:

- A missing or empty `fechaAlta` counts as active, because `isActive` tests
  `it.fechaAlta !== null`: `undefined` and `''` give `isActive == true`. The
  date filter and the popup test truthiness instead, so they still treat such
  a record as having no date (`ViewFilter.FalsyButActiveRecord`,
  `Dashboard.ActiveRecordWithoutPopup`).
- A failed credential fetch sets no error message. The rejection of
  `fetchUsers()` escapes `handleLogin` before any state is written, so no
  message is set and `onLoginSuccess` is not called (`Login.HandleLogin`,
  case `UsersThrew`). A response that is not an array makes `users.find`
  throw, which ends the same way, so it is modelled as `UsersThrew` too.
- Identifiers are ordered by `localeCompare`, not by plain code-point order.
  The model keeps that order abstract.
- A missing identifier is not skipped. `String(idEmisor)` turns a `null` or
  missing identifier into the text `"null"` or `"undefined"`, which is then
  sorted and searched like any other (`ViewFilter.SearchExample`).

## Model

| member | source | states |
|---|---|---|
| Emitters.ActiveButFalsy | locales-dashboard/src/App.jsx:72 | `isActive` is false only for `null`. `undefined` and `''` are active but falsy, and every truthy date is active. |
| Emitters.IsActive | locales-dashboard/src/App.jsx:72 | A record is active for an `undefined`, empty or present date, and for every truthy date; only `null` makes it inactive. |
| Emitters.Truthy | locales-dashboard/src/App.jsx:80 | A date is falsy exactly when it is `null`, `undefined` or `''`. |
| Emitters.IdString | locales-dashboard/src/App.jsx:86-89 | `String(idEmisor)` is the string itself, the canonical decimal text of a number (no leading zero, no `-0`, and it reads back as that number), or `"null"`/`"undefined"`. |
| Emitters.NameTruthy | locales-dashboard/src/App.jsx:86 | A name is truthy iff it is present and non-empty; a missing name and `''` are falsy. |
| Emitters.Normalize | locales-dashboard/src/App.jsx:72 | The normalised row carries the record unchanged and is active iff its date is not `null`. |
| Emitters.NormalizeAll | locales-dashboard/src/App.jsx:71 | `map` keeps the length and normalises the record at each position. |
| Emitters.NormalizeAllMembers | locales-dashboard/src/App.jsx:71-72 | A normalised row is exactly an input record, untouched, with `isActive` set from its own `fechaAlta`. |
| ViewFilter.FilteredIsPermutation | locales-dashboard/src/App.jsx:71-90 | The view is a permutation of exactly the normalised records that pass the status, date and text filters. |
| ViewFilter.FilteredMembers | locales-dashboard/src/App.jsx:71-86 | A row is shown iff its record is in `items`, its `isActive` matches its `fechaAlta`, no other field changed, and it passes all three filters. |
| ViewFilter.Filtered | locales-dashboard/src/App.jsx:64-91 | The view never has more rows than `items`. |
| ViewFilter.Needle | locales-dashboard/src/App.jsx:65 | The needle is the trimmed query lower-cased character by character. It has no capital letters, no whitespace at either end, is no longer than the query, and is empty exactly when the query is blank. |
| ViewFilter.StatusKeeps | locales-dashboard/src/App.jsx:73-77 | `'active'` keeps exactly the active rows, `'inactive'` exactly the inactive ones, any other value keeps every row. |
| ViewFilter.DateKeeps | locales-dashboard/src/App.jsx:78-85 | With no bound every row is kept; a row kept under a bound has a truthy date inside each bound that is set. |
| ViewFilter.TextKeeps | locales-dashboard/src/App.jsx:86 | An empty needle keeps every row; a kept row holds the needle in its lower-cased identifier text or its lower-cased non-empty name. |
| ViewFilter.FilteredIsSortedSelection | locales-dashboard/src/App.jsx:71-90 | The three filter passes act as one filter by their conjunction: the view is the sort of the passing records in input order. |
| ViewFilter.FilteredStable | locales-dashboard/src/App.jsx:71-90 | Rows of the view that compare equal keep the order of the fetched list. |
| ViewFilter.Select | locales-dashboard/src/App.jsx:73-86 | `filter` keeps every element satisfying the predicate, with its multiplicity, and drops every other. |
| ViewFilter.SelectAppend | locales-dashboard/src/App.jsx:73-86 | Filtering a concatenation filters each part and joins the results in the same order, so `filter` keeps its input order. |
| ViewFilter.SelectSelect | locales-dashboard/src/App.jsx:73-86 | Two successive filters equal one filter by the conjunction. |
| ViewFilter.FilteredOrder | locales-dashboard/src/App.jsx:87-90 | In the view, every active row precedes every inactive row. Within one status, identifier texts are non-decreasing under the string comparison. |
| ViewFilter.StatusFilterMeaning | locales-dashboard/src/App.jsx:73-77 | `'active'` shows only active rows and `'inactive'` only inactive ones. Any other status value gives the same view as `'all'`. |
| ViewFilter.DateKeepsMeaning | locales-dashboard/src/App.jsx:78-85 | With no bound, every record passes. With a bound, falsy dates fail. Otherwise a date passes iff it lies in the closed interval [start of start day, end of end day]. |
| ViewFilter.DateBoundsInclusive | locales-dashboard/src/App.jsx:66-69 | The first millisecond of the start day and the last millisecond of the end day pass. One millisecond outside either fails. |
| ViewFilter.DayStart | locales-dashboard/src/App.jsx:66-67 | The first millisecond of day `d` is a whole multiple of a day, and dividing it by the day length gives back `d`. |
| ViewFilter.DayEnd | locales-dashboard/src/App.jsx:68-69 | The end-of-day bound lies in the same day as the start-of-day bound: not before it, and before the next day's start. |
| ViewFilter.BoundedViewHasDates | locales-dashboard/src/App.jsx:79-80 | With either date bound set, every shown row has a truthy date, whatever the status and query. |
| ViewFilter.FalsyButActiveRecord | locales-dashboard/src/App.jsx:72-80 | A record with `undefined` or `''` date is shown under `'active'` with no bound set. It disappears once any bound is set. |
| ViewFilter.TextKeepsMeaning | locales-dashboard/src/App.jsx:86 | An empty needle keeps every row. Otherwise a row is kept iff the needle occurs in its lower-cased identifier text or in its non-empty lower-cased name. |
| ViewFilter.BlankQueryKeepsAll | locales-dashboard/src/App.jsx:65 | A whitespace-only query gives the same view as the empty query. |
| ViewFilter.NeedleIgnoresCase | locales-dashboard/src/App.jsx:65 | Queries that differ only in letter case give the same needle. |
| ViewFilter.SearchExample | locales-dashboard/src/App.jsx:86 | `"abc"` matches identifier `"ABC123"` and name `"abcd"`, but not `"XYZ"`/`"xyz"`. A record with no identifier matches `"fine"` through the text `"undefined"`. |
| Text.IsSpace | locales-dashboard/src/App.jsx:65 | The characters `trim` strips include space, tab, line feed, carriage return, no-break space and the byte-order mark, and never a capital letter, a digit or `-`. |
| Text.ToLower | locales-dashboard/src/App.jsx:65 | Lower-casing keeps the length and maps each character on its own: capitals to their lower-case letter, everything else unchanged. |
| Text.Trim | locales-dashboard/src/App.jsx:65 | `trim` returns the slice of the input left after dropping leading and trailing whitespace. The slice starts and ends with a non-space, and is empty exactly for a blank input. |
| Text.Includes | locales-dashboard/src/App.jsx:86 | `includes` is true iff the needle occurs at some position of the text. |
| Text.IntToString | locales-dashboard/src/App.jsx:86 | The text of an integer is non-empty, starts with `0` only for zero itself, and a `-` is followed by a non-zero digit of a negative number. |
| Text.IntToStringRoundTrip | locales-dashboard/src/App.jsx:86 | `String` of an integer identifier reads back as the same integer, so distinct numbers have distinct texts. |
| Text.IntToStringIsLowerCase | locales-dashboard/src/App.jsx:86 | Lower-casing the text of a numeric identifier leaves it unchanged. |
| Text.LexLeIsTotalPreorder | locales-dashboard/src/App.jsx:89 | Code-point order on strings is a total preorder, so it is an admissible `localeCompare` stand-in. |
| RowSort.RowLe | locales-dashboard/src/App.jsx:87-90 | The comparator ranks an active row before every inactive row and never after it. |
| RowSort.RowLeSameStatus | locales-dashboard/src/App.jsx:89 | Between rows of the same status, the comparator is `localeCompare` of the identifier texts. |
| RowSort.SortRows | locales-dashboard/src/App.jsx:87-90 | The sort returns a permutation of its input. |
| RowSort.SortRowsSorted | locales-dashboard/src/App.jsx:87-90 | The sort output is ordered by the comparator for every pair of positions, not only neighbours. |
| RowSort.SortRowsOrder | locales-dashboard/src/App.jsx:87-90 | The sort output is a permutation of its input, with active rows first and identifier texts ascending within each status. |
| RowSort.SortRowsStable | locales-dashboard/src/App.jsx:87-90 | Rows the comparator ranks equal keep their input order, as in the stable `Array.prototype.sort`. |
| Dashboard.View | locales-dashboard/src/App.jsx:64-91 | The list rendered for a state never has more rows than the fetched records. |
| Dashboard.UnfilteredViewShowsAll | locales-dashboard/src/App.jsx:64-91 | With the initial filters (empty search, `'all'`, no dates) the view holds every fetched record, normalised, none dropped. |
| Dashboard.Load | locales-dashboard/src/App.jsx:27-34 | A returned array becomes `items` and any other returned value gives `[]`. A throw leaves the whole state unchanged. Filters, popup and theme are never touched. |
| Dashboard.LoadReplacesWholesale | locales-dashboard/src/App.jsx:27-34 | After a successful load, `items` and the view do not depend on the previous list. No old record missing from the new data survives. |
| Dashboard.LoadIdempotent | locales-dashboard/src/App.jsx:27-34 | Applying the same fetch result twice is the same as applying it once. |
| Dashboard.ShowModal | locales-dashboard/src/App.jsx:36-44 | A falsy date leaves the state unchanged. Otherwise the popup holds that date, anchored at the box centre, and replaces any previous popup. Nothing else changes. |
| Dashboard.PopupAnchoredInBox | locales-dashboard/src/App.jsx:38-43 | For a box of non-negative size, the anchor lies inside the box and is equidistant from opposite sides. |
| Dashboard.ActiveRecordWithoutPopup | locales-dashboard/src/App.jsx:37 | A record with `undefined` or `''` date is active, yet clicking it opens no popup. |
| Dashboard.CloseModal | locales-dashboard/src/App.jsx:46-48 | Closing always leaves no popup and changes nothing else. |
| Dashboard.ShowThenClose | locales-dashboard/src/App.jsx:36-48 | The open popup holds the clicked date. Open-then-close equals close alone. |
| Dashboard.ToggleTheme | locales-dashboard/src/App.jsx:50-52 | The theme flips and nothing else changes. |
| Dashboard.ToggleTwice | locales-dashboard/src/App.jsx:50-52 | Two toggles restore the state. |
| Dashboard.Fmt | locales-dashboard/src/App.jsx:12-15 | `fmt` renders `'N/A'` iff the value is falsy. |
| Dashboard.PopupHasDateInvariant | locales-dashboard/src/App.jsx:36-48 | Every transition keeps the open popup's date truthy, so the popup never renders `'N/A'`. |
| Login.FindFirst | locales-dashboard/src/LoginPage.jsx:16 | `find` returns the first index whose `nombre` equals the username, or none when no entry has that name. |
| Login.HandleLogin | locales-dashboard/src/LoginPage.jsx:11-28 | Success iff the first entry named `username` has hash `H(password)`. Success clears the error and reports exactly the entered username. Failure sets the one generic message. A failed fetch changes nothing. |
| Login.FailuresIndistinguishable | locales-dashboard/src/LoginPage.jsx:22-27 | An unknown user and a wrong password both fail and leave the same error message. |
| Login.LaterEntriesIgnored | locales-dashboard/src/LoginPage.jsx:16 | Entries after the first one with the username, including duplicates with a matching hash, do not change the outcome. |
| Login.LoginStateless | locales-dashboard/src/LoginPage.jsx:11-28 | The outcome depends only on the list, the username and the password. No earlier error, counter or lockout is read. |
| Login.LoginExample | locales-dashboard/src/LoginPage.jsx:15-27 | With the one credential `ana`/`H(pw)`: `ana`+`pw` succeeds; `ana`+wrong password and `bob`+`pw` both fail with the generic message. |
| Session.GetItem | locales-dashboard/src/App.jsx:148 | `getItem` returns the stored value of a present key and `null` for an absent one. |
| Session.Restore | locales-dashboard/src/App.jsx:148 | On start-up the user state equals the stored `'user'` value, or none. |
| Session.LoginSuccess | locales-dashboard/src/App.jsx:150-153 | Login writes the username both to the `'user'` key and to the state. Every other storage key is untouched. |
| Session.Logout | locales-dashboard/src/App.jsx:155-158 | Logout removes the `'user'` key and clears the state. Every other storage key is untouched. |
| Session.Render | locales-dashboard/src/App.jsx:160-164 | The dashboard is shown iff the user state is a non-empty string, and then for that user. |
| Session.SessionStaysInSync | locales-dashboard/src/App.jsx:148-158 | Start-up, login and logout keep state and storage in agreement. Reloading an in-sync state changes nothing. |
| Session.ReloadAfterLoginAndLogout | locales-dashboard/src/App.jsx:148-164 | Login then reload shows that user's dashboard with no new credential check. Logout then reload shows the login page. |
| Session.AcceptedLoginOpensDashboard | locales-dashboard/src/LoginPage.jsx:22-24 | An accepted login hands the entered username to `handleLoginSuccess`, which opens the dashboard for that username. |

## Left out

- Rendering, CSS classes, the logo and the markup of both components: they
  are presentation only.
- The polling lifecycle (`setInterval`, `clearInterval`, overlapping fetches,
  writes after unmount): this is timer and async scheduling. Only the effect
  of one completed `load` is modelled.
- `fetchEmittersLastSeen` and `fetchUsers`: `./api` is not part of this
  model, and both are network I/O. Their results are inputs. `load` logs the
  error with `console.error`, which is not modelled.
- SHA-256 from `crypto-js`: a foreign library, modelled as a parameter `H`.
- JavaScript `Date` parsing, time zones, daylight saving and `Invalid Date`:
  a date input is a day number whose bounds are fixed multiples of 86400000 ms.
  A `fechaAlta` is either falsy or a millisecond value. An unparsable
  `fechaAlta` (a NaN date, which fails neither comparison) is not modelled.
  Neither is a numeric `fechaAlta` of `0`, which is falsy.
- `localeCompare` locale rules: modelled as an arbitrary total preorder `le`.
- Non-ASCII case mapping of `toLowerCase`: only `A`-`Z` are lowered.
- Identifiers that are non-integer JavaScript numbers: `idEmisor` is a string,
  an integer, `null` or missing.
- Emitters.IdString: a numeric identifier is an integer of magnitude at most
  `Number.MAX_SAFE_INTEGER` (9007199254740991), where `String` prints the
  exact digits. Larger numbers, which `String` rounds or writes in exponent
  form (`1e+21`), are not modelled.
- Text.IntToString: prints every integer exactly, unlike JavaScript's
  `String` beyond 2^53; the model only applies it to safe integers.
- A `name` that is truthy but not a string, which would make `toLowerCase`
  throw: `name` is an optional string.
- `fmt`'s locale formatting and its `catch` fallback: `Dashboard.Fmt` keeps
  only the `'N/A'` branch against a formatted date.
- Geometry as IEEE doubles: popup coordinates are real numbers.
- `document.body.className` and the `useMemo` cache: a DOM side effect and a
  React implementation detail. The view is modelled as the pure function the
  cache wraps.
- The filter inputs' `onChange` setters and `preventDefault`: plain field
  writes with no logic.
- The browser's `required` check on the login inputs: it keeps an empty
  username from being submitted. The model still treats an empty stored
  username as logged out, as the code does.

=== FILE: dashboard.dfy ===
/** The `Dashboard` component's state and its transitions
    (locales-dashboard/src/App.jsx:17-91): the refresh write, the date popup
    and the theme switch, with the derived view on top. */
module Dashboard {
  import opened Optional
  import opened Emitters
  import opened ViewFilter

  datatype Theme = Light | Dark

  /** The open popup: the date it shows and its anchor point. */
  datatype Popup = Popup(fecha: FechaAlta, top: real, left: real)

  /** The clicked element's bounding box. */
  datatype Rect = Rect(top: real, left: real, width: real, height: real)

  /** What `fetchEmittersLastSeen()` produced for one `load`. */
  datatype JsValue = JsArray(records: seq<Emitter>) | NotArray
  datatype Fetch = Threw | Returned(data: JsValue)

  /** Everything `Dashboard` keeps in `useState`. */
  datatype State = State(items: seq<Emitter>, filters: Filters, modal: Option<Popup>, theme: Theme)

  /** The state on mount: no records, no filters, no popup, dark theme. */
  const Initial := State([], NoFilters, None, Dark)

  /** One completed `load()`: a returned array replaces the list, any other
      returned value empties it, and a throw leaves the state as it was. */
  function Load(s: State, fetched: Fetch): (t: State)
    ensures t.filters == s.filters && t.modal == s.modal && t.theme == s.theme
    ensures fetched.Threw? ==> t == s
    ensures fetched.Returned? && fetched.data.JsArray? ==> t.items == fetched.data.records
    ensures fetched.Returned? && fetched.data.NotArray? ==> t.items == []
  {
    match fetched
    case Threw => s
    case Returned(data) => s.(items := if data.JsArray? then data.records else [])
  }

  /** The list shown for a state. */
  function View(s: State, le: (string, string) -> bool): (v: seq<Row>)
    ensures |v| <= |s.items|
  {
    Filtered(s.items, s.filters, le)
  }

  /** With the initial filters the view lists every fetched record, each
      normalised, nothing dropped. */
  lemma UnfilteredViewShowsAll(s: State, le: (string, string) -> bool)
    requires s.filters == NoFilters
    ensures multiset(View(s, le)) == multiset(NormalizeAll(s.items))
  {
    var rows := NormalizeAll(s.items);
    assert Needle(NoFilters.q) == "";
    SelectAll(rows, (x: Row) => Passes(NoFilters, x));
    FilteredIsSortedSelection(s.items, NoFilters, le);
  }

  /** A successful refresh replaces the list wholesale: the result does not
      depend on the previous list, so no record of an earlier poll that is
      absent from the new one survives, and the view is a function of the
      fetched data and the filters alone. */
  lemma LoadReplacesWholesale(s1: State, s2: State, data: JsValue, le: (string, string) -> bool)
    requires s1.filters == s2.filters
    ensures Load(s1, Returned(data)).items == Load(s2, Returned(data)).items
    ensures forall e :: e in s1.items && (data.NotArray? || e !in data.records) ==>
                        e !in Load(s1, Returned(data)).items
    ensures View(Load(s1, Returned(data)), le) == View(Load(s2, Returned(data)), le)
  {
  }

  /** Repeating a poll that returns the same data changes nothing more. */
  lemma LoadIdempotent(s: State, fetched: Fetch)
    ensures Load(Load(s, fetched), fetched) == Load(s, fetched)
  {
  }

  /** `showModal(item, e)`: a falsy `fechaAlta` leaves the state alone;
      otherwise the popup shows that date, anchored at the centre of the
      clicked box, replacing any popup already open. */
  function ShowModal(s: State, item: Row, rect: Rect): (t: State)
    ensures t.items == s.items && t.filters == s.filters && t.theme == s.theme
    ensures !Truthy(item.rec.fechaAlta) ==> t == s
    ensures Truthy(item.rec.fechaAlta) ==>
            t.modal == Some(Popup(item.rec.fechaAlta, rect.top + rect.height / 2.0, rect.left + rect.width / 2.0))
  {
    if !Truthy(item.rec.fechaAlta) then s
    else s.(modal := Some(Popup(item.rec.fechaAlta, rect.top + rect.height / 2.0, rect.left + rect.width / 2.0)))
  }

  /** `closeModal()`. */
  function CloseModal(s: State): (t: State)
    ensures t.modal.None?
    ensures t.items == s.items && t.filters == s.filters && t.theme == s.theme
  {
    s.(modal := None)
  }

  /** `toggleTheme()`. */
  function ToggleTheme(s: State): (t: State)
    ensures t.theme != s.theme
    ensures t.items == s.items && t.filters == s.filters && t.modal == s.modal
  {
    s.(theme := if s.theme == Light then Dark else Light)
  }

  /** The anchor lies in the clicked box, halfway along each side. */
  lemma PopupAnchoredInBox(s: State, item: Row, rect: Rect)
    requires Truthy(item.rec.fechaAlta)
    requires rect.width >= 0.0 && rect.height >= 0.0
    ensures var p := ShowModal(s, item, rect).modal.value;
            && rect.top <= p.top <= rect.top + rect.height
            && rect.left <= p.left <= rect.left + rect.width
            && p.top - rect.top == rect.top + rect.height - p.top
            && p.left - rect.left == rect.left + rect.width - p.left
  {
  }

  /** A record with `fechaAlta` `undefined` or `''` is shown as active, yet
      clicking it opens no popup: the popup test is truthiness, not `!== null`. */
  lemma ActiveRecordWithoutPopup(s: State, e: Emitter, rect: Rect)
    requires e.fechaAlta == Undefined || e.fechaAlta == EmptyStr
    ensures Normalize(e).isActive
    ensures ShowModal(s, Normalize(e), rect) == s
  {
  }

  /** Opening then closing leaves no popup, and the clicked date is what the
      popup holds in between. */
  lemma ShowThenClose(s: State, item: Row, rect: Rect)
    ensures Truthy(item.rec.fechaAlta) ==> ShowModal(s, item, rect).modal.value.fecha == item.rec.fechaAlta
    ensures CloseModal(ShowModal(s, item, rect)).modal.None?
    ensures CloseModal(ShowModal(s, item, rect)) == CloseModal(s)
  {
  }

  /** Two toggles restore the theme. */
  lemma ToggleTwice(s: State)
    ensures ToggleTheme(ToggleTheme(s)) == s
  {
  }

  /** What `fmt(ts)` renders: the fixed `'N/A'` for a falsy value, otherwise
      the locale rendering of the date. */
  datatype Shown = NotAvailable | LocaleText(ms: int)

  function Fmt(f: FechaAlta): (d: Shown)
    ensures d.NotAvailable? <==> !Truthy(f)
  {
    if !Truthy(f) then NotAvailable else LocaleText(f.ms)
  }

  /** Only a truthy date is ever held by an open popup. */
  ghost predicate PopupHasDate(s: State) {
    s.modal.Some? ==> Truthy(s.modal.value.fecha)
  }

  /** Every transition keeps `PopupHasDate`, so the popup never renders the
      `'N/A'` branch of `fmt`. */
  lemma PopupHasDateInvariant(s: State, item: Row, rect: Rect, fetched: Fetch)
    requires PopupHasDate(s)
    ensures PopupHasDate(Initial)
    ensures PopupHasDate(Load(s, fetched))
    ensures PopupHasDate(ShowModal(s, item, rect))
    ensures PopupHasDate(CloseModal(s))
    ensures PopupHasDate(ToggleTheme(s))
    ensures s.modal.Some? ==> Fmt(s.modal.value.fecha).LocaleText?
  {
  }
}

=== FILE: emitters.dfy ===
/** Emitter records as the backend delivers them, and the record normaliser
    that adds the derived `isActive` flag (locales-dashboard/src/App.jsx:72). */
module Emitters {
  import opened Optional
  import opened Text

  /** The `fechaAlta` field. The dashboard tests it in two different ways —
      strictly against `null`, and by JavaScript truthiness — so the falsy
      values that are not `null` are kept apart. `Stamp(ms)` is a present,
      non-empty date whose `Date` value is `ms` milliseconds. */
  datatype FechaAlta = Null | Undefined | EmptyStr | Stamp(ms: int)

  /** `it.fechaAlta !== null`: a strict test, so a missing or empty date
      still marks the record active. */
  function IsActive(f: FechaAlta): (b: bool)
    ensures b <==> f.Undefined? || f.EmptyStr? || f.Stamp?
    ensures Truthy(f) ==> b
  {
    f != Null
  }

  /** `!!it.fechaAlta`: JavaScript truthiness. */
  function Truthy(f: FechaAlta): (b: bool)
    ensures !b <==> f in {Null, Undefined, EmptyStr}
  {
    f.Stamp?
  }

  /** The integers a JavaScript number holds exactly, up to
      `Number.MAX_SAFE_INTEGER`; `String` prints each of them as its plain
      decimal digits. */
  type SafeInteger = n: int | -9_007_199_254_740_991 <= n <= 9_007_199_254_740_991

  /** `idEmisor` arrives as a string or as a number; a malformed record may
      carry `null` or lack the field. */
  datatype EmitterId = IdText(text: string) | IdNumber(number: SafeInteger) | IdNull | IdUndefined

  /** `String(it.idEmisor)`: a string is its own text, a number its decimal
      text (which reads back as the same number), `null` and a missing field
      the words `"null"` and `"undefined"`. */
  function IdString(id: EmitterId): (s: string)
    ensures id.IdText? ==> s == id.text
    ensures id.IdNumber? ==>
              && s != [] && (s[0] == '-' || IsDigit(s[0]))
              && (forall i :: 1 <= i < |s| ==> IsDigit(s[i]))
              && ParseInt(s) == id.number
              && (s[0] == '0' ==> s == "0")
              && (s[0] == '-' ==> |s| > 1 && s[1] != '0')
    ensures id.IdNull? ==> s == "null"
    ensures id.IdUndefined? ==> s == "undefined"
  {
    match id
    case IdText(t) => t
    case IdNumber(n) => IntToStringRoundTrip(n); IntToString(n)
    case IdNull => "null"
    case IdUndefined => "undefined"
  }

  /** A record's `name`; an absent, `null` or `undefined` name is `None`. */
  type Name = Option<string>

  /** A raw emitter record. */
  datatype Emitter = Emitter(idEmisor: EmitterId, name: Name, fechaAlta: FechaAlta)

  /** `!!it.name`: present and not the empty string. */
  function NameTruthy(n: Name): (b: bool)
    ensures n.None? ==> !b
    ensures n.Some? && n.value == [] ==> !b
    ensures b ==> n.Some? && |n.value| > 0
  {
    n.Some? && n.value != ""
  }

  /** A record after `{...it, isActive}`: the raw record, untouched, next to
      the derived flag. */
  datatype Row = Row(rec: Emitter, isActive: bool)

  /** `normalise(it)`: the record itself, flagged active unless its date is
      `null`. */
  function Normalize(e: Emitter): (r: Row)
    ensures r.rec == e
    ensures r.isActive <==> e.fechaAlta != Null
  {
    Row(e, IsActive(e.fechaAlta))
  }

  /** `items.map(normalise)`. */
  function NormalizeAll(items: seq<Emitter>): (rows: seq<Row>)
    ensures |rows| == |items|
    ensures forall i :: 0 <= i < |items| ==> rows[i] == Normalize(items[i])
  {
    seq(|items|, i requires 0 <= i < |items| => Normalize(items[i]))
  }

  /** A normalised row is exactly an input record with its flag set from its
      own `fechaAlta`; no other field is touched. */
  lemma NormalizeAllMembers(items: seq<Emitter>, r: Row)
    ensures r in NormalizeAll(items) <==> r.rec in items && r.isActive == IsActive(r.rec.fechaAlta)
  {
    var rows := NormalizeAll(items);
    if r.rec in items && r.isActive == IsActive(r.rec.fechaAlta) {
      var i :| 0 <= i < |items| && items[i] == r.rec;
      assert rows[i] == r;
    }
  }

  /** The two tests disagree exactly on `undefined` and `''`: such a record is
      shown as active, yet counts as having no date. Every truthy date is
      active. */
  lemma ActiveButFalsy(f: FechaAlta)
    ensures IsActive(f) && !Truthy(f) <==> f == Undefined || f == EmptyStr
    ensures Truthy(f) ==> IsActive(f)
    ensures !IsActive(f) <==> f == Null
  {
  }
}

=== FILE: login.dfy ===
/** The login decision of `LoginPage.handleLogin`
    (locales-dashboard/src/LoginPage.jsx:11-28): look up the first credential
    whose name equals the entered username and compare its stored hash with
    the hash of the entered password. The hash (SHA-256 in the page) is a
    parameter `H`. */
module Login {
  import opened Optional

  /** One entry of the server's credential list. */
  datatype Credential = Credential(nombre: string, sha256: string)

  /** The single message for both failure causes. */
  const FailureMessage := "Usuario o contrase\U{00F1}a incorrectos"

  /** The page's `useState` fields. */
  datatype Form = Form(username: string, password: string, error: string)

  /** What `fetchUsers()` produced. */
  datatype UsersFetch = UsersThrew | Users(list: seq<Credential>)

  /** The page state after a submit, and the username passed to
      `onLoginSuccess`, if it was called. */
  datatype Attempt = Attempt(form: Form, loggedInAs: Option<string>)

  /** `users.find(u => u.nombre === username)`, as an index. */
  function FindFirst(users: seq<Credential>, name: string): (r: Option<nat>)
    ensures r.Some? ==> r.value < |users| && users[r.value].nombre == name
    ensures r.Some? ==> forall j :: 0 <= j < r.value ==> users[j].nombre != name
    ensures r.None? ==> forall j :: 0 <= j < |users| ==> users[j].nombre != name
  {
    if users == [] then None
    else if users[0].nombre == name then Some(0)
    else
      match FindFirst(users[1..], name)
      case None => None
      case Some(k) => Some(k + 1)
  }

  /** The reference meaning of a successful login: the first entry named
      `username` exists and carries hash `h`. */
  ghost predicate Authorized(users: seq<Credential>, username: string, h: string) {
    exists i :: && 0 <= i < |users|
                && users[i].nombre == username
                && (forall j :: 0 <= j < i ==> users[j].nombre != username)
                && users[i].sha256 == h
  }

  /** `handleLogin`. When `fetchUsers` throws, the rejection escapes the
      handler before any state is written. */
  function HandleLogin(form: Form, fetched: UsersFetch, H: string -> string): (r: Attempt)
    ensures r.form.username == form.username && r.form.password == form.password
    ensures fetched.UsersThrew? ==> r == Attempt(form, None)
    ensures fetched.Users? ==>
            (r.loggedInAs.Some? <==> Authorized(fetched.list, form.username, H(form.password)))
    ensures r.loggedInAs.Some? ==> r.loggedInAs.value == form.username && r.form.error == ""
    ensures fetched.Users? && r.loggedInAs.None? ==> r.form.error == FailureMessage
  {
    match fetched
    case UsersThrew => Attempt(form, None)
    case Users(users) =>
      var found := FindFirst(users, form.username);
      var hashed := H(form.password);
      if found.Some? && users[found.value].sha256 == hashed then
        Attempt(form.(error := ""), Some(form.username))
      else
        Attempt(form.(error := FailureMessage), None)
  }

  /** The two failure causes — no such user, wrong password — end in the
      same state: nothing distinguishes them to the person logging in. */
  lemma FailuresIndistinguishable(form1: Form, form2: Form, users: seq<Credential>, H: string -> string)
    requires form1 == form2.(username := form1.username)
    requires forall j :: 0 <= j < |users| ==> users[j].nombre != form1.username
    requires exists i :: 0 <= i < |users| && users[i].nombre == form2.username
    requires !Authorized(users, form2.username, H(form2.password))
    ensures HandleLogin(form1, Users(users), H).loggedInAs.None?
    ensures HandleLogin(form2, Users(users), H).loggedInAs.None?
    ensures HandleLogin(form1, Users(users), H).form.error == HandleLogin(form2, Users(users), H).form.error
  {
  }

  /** Only the first entry with a given name is consulted: entries appended
      after it, including a duplicate name with a matching hash, change
      nothing. */
  lemma {:induction false} LaterEntriesIgnored(users: seq<Credential>, extra: seq<Credential>, form: Form, H: string -> string)
    requires exists i :: 0 <= i < |users| && users[i].nombre == form.username
    ensures HandleLogin(form, Users(users + extra), H) == HandleLogin(form, Users(users), H)
  {
    FindFirstPrefix(users, extra, form.username);
  }

  lemma {:induction false} FindFirstPrefix(users: seq<Credential>, extra: seq<Credential>, name: string)
    requires exists i :: 0 <= i < |users| && users[i].nombre == name
    ensures FindFirst(users + extra, name) == FindFirst(users, name)
  {
    if users[0].nombre != name {
      assert (users + extra)[1..] == users[1..] + extra;
      var i :| 0 <= i < |users| && users[i].nombre == name;
      assert users[1..][i - 1].nombre == name;
      FindFirstPrefix(users[1..], extra, name);
    }
  }

  /** The decision reads nothing but the list, the username and the
      password: an earlier error message, or any earlier attempt, has no
      influence — there is no counter and no lockout. */
  lemma LoginStateless(form1: Form, form2: Form, fetched: UsersFetch, H: string -> string)
    requires fetched.Users?
    requires form1.username == form2.username && form1.password == form2.password
    ensures HandleLogin(form1, fetched, H) == HandleLogin(form2, fetched, H)
  {
  }

  /** An example: with the single credential `ana` / `H(pw)`,
      `ana` with `pw` gets in, `ana` with another password and `bob` with
      `pw` are both refused with the generic message. */
  lemma LoginExample(pw: string, wrong: string, err: string, H: string -> string)
    requires H(wrong) != H(pw)
    ensures var users := Users([Credential("ana", H(pw))]);
            && HandleLogin(Form("ana", pw, err), users, H) == Attempt(Form("ana", pw, ""), Some("ana"))
            && HandleLogin(Form("ana", wrong, err), users, H) == Attempt(Form("ana", wrong, FailureMessage), None)
            && HandleLogin(Form("bob", pw, err), users, H) == Attempt(Form("bob", pw, FailureMessage), None)
  {
  }
}

=== FILE: optional.dfy ===
/** A value that JavaScript may hold as `null`/`undefined` or as a present value. */
module Optional {

  datatype Option<+T> = None | Some(value: T)
}

=== FILE: row_sort.dfy ===
/** The ordering step of the dashboard's derived view
    (locales-dashboard/src/App.jsx:87-90): active rows first, then by the
    text of the identifier. `le(a, b)` stands for `a.localeCompare(b) <= 0`. */
module RowSort {
  import opened Text
  import opened Emitters

  /** `cmp(a, b) <= 0` for the comparator passed to `sort`: an active row
      ranks before every inactive one and never after it; two rows of the
      same status rank by the text of their identifiers. */
  function RowLe(le: (string, string) -> bool, a: Row, b: Row): (r: bool)
    ensures a.isActive && !b.isActive ==> r
    ensures !a.isActive && b.isActive ==> !r
  {
    if a.isActive != b.isActive then a.isActive
    else le(IdString(a.rec.idEmisor), IdString(b.rec.idEmisor))
  }

  /** Rows of the same status rank by `localeCompare` of their identifier
      texts. */
  lemma RowLeSameStatus(le: (string, string) -> bool, a: Row, b: Row)
    ensures a.isActive == b.isActive ==>
            (RowLe(le, a, b) <==> le(IdString(a.rec.idEmisor), IdString(b.rec.idEmisor)))
  {
  }

  ghost predicate Sorted(le: (string, string) -> bool, s: seq<Row>) {
    forall i, j :: 0 <= i < j < |s| ==> RowLe(le, s[i], s[j])
  }

  lemma RowLeTotal(le: (string, string) -> bool, a: Row, b: Row)
    requires TotalPreorder(le)
    ensures RowLe(le, a, b) || RowLe(le, b, a)
  {
    if a.isActive == b.isActive {
      var x, y := IdString(a.rec.idEmisor), IdString(b.rec.idEmisor);
      assert le(x, y) || le(y, x);
    }
  }

  lemma RowLeTransitive(le: (string, string) -> bool, a: Row, b: Row, c: Row)
    requires TotalPreorder(le)
    requires RowLe(le, a, b) && RowLe(le, b, c)
    ensures RowLe(le, a, c)
  {
    if a.isActive == b.isActive == c.isActive {
      var x, y, z := IdString(a.rec.idEmisor), IdString(b.rec.idEmisor), IdString(c.rec.idEmisor);
      assert le(x, y) && le(y, z) ==> le(x, z);
    }
  }

  /** Places `x` in front of the first row it does not rank after. */
  function Insert(le: (string, string) -> bool, x: Row, s: seq<Row>): (r: seq<Row>)
    ensures multiset(r) == multiset(s) + multiset{x}
    ensures |r| == |s| + 1
  {
    if s == [] then [x]
    else if RowLe(le, x, s[0]) then [x] + s
    else
      assert s == [s[0]] + s[1..];
      [s[0]] + Insert(le, x, s[1..])
  }

  /** Insertion sort: `Insert` puts an earlier row before later rows it ties
      with, so rows that compare equal keep their input order, as the stable
      `Array.prototype.sort` does. */
  function SortRows(le: (string, string) -> bool, s: seq<Row>): (r: seq<Row>)
    ensures multiset(r) == multiset(s)
    ensures |r| == |s|
  {
    if s == [] then []
    else
      assert s == [s[0]] + s[1..];
      Insert(le, s[0], SortRows(le, s[1..]))
  }

  lemma {:induction false} InsertSorted(le: (string, string) -> bool, x: Row, s: seq<Row>)
    requires TotalPreorder(le)
    requires Sorted(le, s)
    ensures Sorted(le, Insert(le, x, s))
  {
    var r := Insert(le, x, s);
    if s == [] {
    } else if RowLe(le, x, s[0]) {
      forall i, j | 0 <= i < j < |r|
        ensures RowLe(le, r[i], r[j])
      {
        if i == 0 {
          RowLeTransitive(le, x, s[0], s[j - 1]);
        }
      }
    } else {
      var t := Insert(le, x, s[1..]);
      InsertSorted(le, x, s[1..]);
      RowLeTotal(le, x, s[0]);
      InsertBelow(le, s[0], x, s[1..]);
      assert r == [s[0]] + t;
      ConsSorted(le, s[0], t);
    }
  }

  /** A row that ranks before `x` and before every row of `s` ranks before
      every row of `Insert(le, x, s)`. */
  lemma InsertBelow(le: (string, string) -> bool, y: Row, x: Row, s: seq<Row>)
    requires RowLe(le, y, x)
    requires forall k :: 0 <= k < |s| ==> RowLe(le, y, s[k])
    ensures forall j :: 0 <= j < |Insert(le, x, s)| ==> RowLe(le, y, Insert(le, x, s)[j])
  {
    var t := Insert(le, x, s);
    forall j | 0 <= j < |t|
      ensures RowLe(le, y, t[j])
    {
      assert t[j] in multiset(t);
      if t[j] != x {
        assert t[j] in multiset(s);
        var k :| 0 <= k < |s| && s[k] == t[j];
      }
    }
  }

  lemma ConsSorted(le: (string, string) -> bool, y: Row, t: seq<Row>)
    requires Sorted(le, t)
    requires forall j :: 0 <= j < |t| ==> RowLe(le, y, t[j])
    ensures Sorted(le, [y] + t)
  {
    var r := [y] + t;
    forall i, j | 0 <= i < j < |r|
      ensures RowLe(le, r[i], r[j])
    {
      if i == 0 {
        assert r[j] == t[j - 1];
      } else {
        assert r[i] == t[i - 1] && r[j] == t[j - 1];
      }
    }
  }

  lemma {:induction false} SortRowsSorted(le: (string, string) -> bool, s: seq<Row>)
    requires TotalPreorder(le)
    ensures Sorted(le, SortRows(le, s))
  {
    if s != [] {
      SortRowsSorted(le, s[1..]);
      InsertSorted(le, s[0], SortRows(le, s[1..]));
    }
  }

  /** What the comparator promises of the sorted list: every active row
      precedes every inactive row, and rows with the same status are in
      non-decreasing order of their identifier text. The list is a
      permutation of its input. */
  lemma SortRowsOrder(le: (string, string) -> bool, s: seq<Row>)
    requires TotalPreorder(le)
    ensures var r := SortRows(le, s);
            && multiset(r) == multiset(s)
            && (forall i, j :: 0 <= i < j < |r| && r[j].isActive ==> r[i].isActive)
            && (forall i, j :: 0 <= i < j < |r| && r[i].isActive == r[j].isActive ==>
                  le(IdString(r[i].rec.idEmisor), IdString(r[j].rec.idEmisor)))
  {
    SortRowsSorted(le, s);
  }

  /** `a` and `b` compare equal: the comparator returns 0 both ways. */
  predicate Tied(le: (string, string) -> bool, a: Row, b: Row) {
    RowLe(le, a, b) && RowLe(le, b, a)
  }

  /** The rows of `s` that compare equal to `c`, in their order in `s`. */
  function Ties(le: (string, string) -> bool, s: seq<Row>, c: Row): seq<Row> {
    if s == [] then []
    else if Tied(le, s[0], c) then [s[0]] + Ties(le, s[1..], c)
    else Ties(le, s[1..], c)
  }

  lemma {:induction false} InsertTies(le: (string, string) -> bool, x: Row, t: seq<Row>, c: Row)
    requires TotalPreorder(le)
    ensures Ties(le, Insert(le, x, t), c) ==
            (if Tied(le, x, c) then [x] + Ties(le, t, c) else Ties(le, t, c))
  {
    if t != [] && !RowLe(le, x, t[0]) {
      InsertTies(le, x, t[1..], c);
      if Tied(le, x, c) && Tied(le, t[0], c) {
        RowLeTransitive(le, x, c, t[0]);
      }
    }
  }

  /** The sort is stable: rows that compare equal appear in the output in the
      order they had in the input. */
  lemma {:induction false} SortRowsStable(le: (string, string) -> bool, s: seq<Row>, c: Row)
    requires TotalPreorder(le)
    ensures Ties(le, SortRows(le, s), c) == Ties(le, s, c)
  {
    if s != [] {
      SortRowsStable(le, s[1..], c);
      InsertTies(le, s[0], SortRows(le, s[1..]), c);
    }
  }
}

=== FILE: session.dfy ===
/** `App`'s session gate (locales-dashboard/src/App.jsx:147-164): the
    logged-in username lives under one `localStorage` key and in component
    state; the state is read from storage on start-up, and the dashboard is
    shown iff the state is truthy. */
module Session {
  import opened Optional
  import Login

  /** The one key the app uses. */
  const UserKey := "user"

  /** `localStorage`, as a map from keys to stored strings. */
  type Storage = map<string, string>

  /** The durable storage and `App`'s `user` state. */
  datatype AppState = AppState(storage: Storage, user: Option<string>)

  /** `localStorage.getItem(key)`; `None` stands for `null`. */
  function GetItem(storage: Storage, key: string): (v: Option<string>)
    ensures v.Some? <==> key in storage
    ensures v.Some? ==> v.value == storage[key]
  {
    if key in storage then Some(storage[key]) else None
  }

  /** Start-up: `useState(localStorage.getItem('user'))`. */
  function Restore(storage: Storage): (a: AppState)
    ensures a.storage == storage
    ensures a.user == GetItem(storage, UserKey)
  {
    AppState(storage, GetItem(storage, UserKey))
  }

  /** `handleLoginSuccess(username)`. */
  function LoginSuccess(a: AppState, username: string): (b: AppState)
    ensures GetItem(b.storage, UserKey) == Some(username) && b.user == Some(username)
    ensures forall k :: k != UserKey ==> GetItem(b.storage, k) == GetItem(a.storage, k)
  {
    AppState(a.storage[UserKey := username], Some(username))
  }

  /** `handleLogout()`. */
  function Logout(a: AppState): (b: AppState)
    ensures GetItem(b.storage, UserKey).None? && b.user.None?
    ensures forall k :: k != UserKey ==> GetItem(b.storage, k) == GetItem(a.storage, k)
  {
    AppState(a.storage - {UserKey}, None)
  }

  /** Which component `App` renders. */
  datatype Screen = LoginScreen | DashboardScreen(user: string)

  /** `if (!user) <LoginPage/> else <Dashboard user={user}/>`: the empty
      string is falsy too. */
  function Render(a: AppState): (s: Screen)
    ensures s.DashboardScreen? <==> a.user.Some? && a.user.value != ""
    ensures s.DashboardScreen? ==> s.user == a.user.value
  {
    if a.user.Some? && a.user.value != "" then DashboardScreen(a.user.value) else LoginScreen
  }

  /** The in-memory state agrees with storage. */
  ghost predicate InSync(a: AppState) {
    a.user == GetItem(a.storage, UserKey)
  }

  /** Start-up, login and logout all leave state and storage in agreement,
      so a reload of an in-sync state changes nothing. */
  lemma SessionStaysInSync(a: AppState, storage: Storage, username: string)
    ensures InSync(Restore(storage))
    ensures InSync(LoginSuccess(a, username))
    ensures InSync(Logout(a))
    ensures InSync(a) ==> Restore(a.storage) == a
  {
  }

  /** Logging in and then reloading the page shows the dashboard for the same
      user without another credential check; logging out and reloading shows
      the login page. */
  lemma ReloadAfterLoginAndLogout(a: AppState, username: string)
    requires username != ""
    ensures Render(Restore(LoginSuccess(a, username).storage)) == DashboardScreen(username)
    ensures Render(Restore(Logout(a).storage)) == LoginScreen
  {
  }

  /** A login accepted by `LoginPage` reaches `handleLoginSuccess` with the
      entered username, after which `App` renders the dashboard for it. */
  lemma AcceptedLoginOpensDashboard(a: AppState, form: Login.Form, fetched: Login.UsersFetch, H: string -> string)
    requires form.username != ""
    requires Login.HandleLogin(form, fetched, H).loggedInAs.Some?
    ensures var u := Login.HandleLogin(form, fetched, H).loggedInAs.value;
            Render(LoginSuccess(a, u)) == DashboardScreen(form.username)
  {
  }
}

=== FILE: text.dfy ===
/** The JavaScript string built-ins the dashboard relies on: `trim`,
    `toLowerCase`, `includes`, `String(n)` for an integer identifier, and an
    order on strings standing in for `localeCompare`. Strings are sequences of
    code points; case mapping covers ASCII letters only. */
module Text {

  /** The characters `String.prototype.trim` strips: the ECMAScript
      WhiteSpace and LineTerminator code points. */
  function IsSpace(c: char): (b: bool)
    ensures c as int in {0x09, 0x0A, 0x0D, 0x20, 0xA0, 0xFEFF} ==> b
    ensures b ==> !IsUpper(c) && !IsDigit(c) && c != '-'
  {
    || c == '\t' || c == '\n' || c == '\U{000B}' || c == '\U{000C}' || c == '\r'
    || c == ' ' || c == '\U{00A0}' || c == '\U{1680}'
    || ('\U{2000}' <= c <= '\U{200A}')
    || c == '\U{2028}' || c == '\U{2029}' || c == '\U{202F}' || c == '\U{205F}'
    || c == '\U{3000}' || c == '\U{FEFF}'
  }

  predicate IsUpper(c: char) {
    'A' <= c <= 'Z'
  }

  function LowerChar(c: char): (d: char)
    ensures !IsUpper(d)
    ensures IsUpper(c) ==> d as int == c as int + 32
    ensures !IsUpper(c) ==> d == c
  {
    if IsUpper(c) then (c as int + 32) as char else c
  }

  /** `s.toLowerCase()`, restricted to ASCII letters. */
  function ToLower(s: string): (r: string)
    ensures |r| == |s|
    ensures forall i :: 0 <= i < |s| ==> r[i] == LowerChar(s[i])
  {
    seq(|s|, i requires 0 <= i < |s| => LowerChar(s[i]))
  }

  /** Number of whitespace characters at the front of `s`. */
  function LeadingSpace(s: string): (n: nat)
    ensures n <= |s|
    ensures forall k :: 0 <= k < n ==> IsSpace(s[k])
    ensures n < |s| ==> !IsSpace(s[n])
  {
    if s == [] || !IsSpace(s[0]) then 0 else 1 + LeadingSpace(s[1..])
  }

  /** Length of `s` once its trailing whitespace is dropped. */
  function TrailingCut(s: string): (m: nat)
    ensures m <= |s|
    ensures forall k :: m <= k < |s| ==> IsSpace(s[k])
    ensures 0 < m ==> !IsSpace(s[m - 1])
  {
    if s == [] || !IsSpace(s[|s| - 1]) then |s| else TrailingCut(s[..|s| - 1])
  }

  /** `r` is the slice of `s` starting at `i`, and everything outside that
      slice is whitespace. */
  ghost predicate SliceWithin(s: string, r: string, i: int) {
    && 0 <= i <= |s| - |r|
    && r == s[i..i + |r|]
    && (forall k :: 0 <= k < i ==> IsSpace(s[k]))
    && (forall k :: i + |r| <= k < |s| ==> IsSpace(s[k]))
  }

  /** `s.trim()`. */
  function Trim(s: string): (r: string)
    ensures r != [] ==> !IsSpace(r[0]) && !IsSpace(r[|r| - 1])
    ensures |r| <= |s|
    ensures r == [] <==> forall k :: 0 <= k < |s| ==> IsSpace(s[k])
    ensures exists i :: SliceWithin(s, r, i)
  {
    var n := LeadingSpace(s);
    var m := TrailingCut(s);
    if m <= n then
      assert SliceWithin(s, [], 0);
      []
    else
      assert SliceWithin(s, s[n..m], n);
      s[n..m]
  }

  /** Whether `needle` occurs in `hay` starting at position `i`. */
  ghost predicate OccursAt(hay: string, needle: string, i: int) {
    0 <= i && i + |needle| <= |hay| && hay[i..i + |needle|] == needle
  }

  /** `hay.includes(needle)`. */
  function Includes(hay: string, needle: string): (b: bool)
    ensures b <==> exists i :: OccursAt(hay, needle, i)
    decreases |hay|
  {
    if |hay| < |needle| then
      false
    else if needle <= hay then
      assert OccursAt(hay, needle, 0);
      true
    else
      OccursInTail(hay, needle);
      Includes(hay[1..], needle)
  }

  /** When `needle` is not a prefix of `hay`, it occurs in `hay` iff it
      occurs in `hay` without its first character. */
  lemma OccursInTail(hay: string, needle: string)
    requires hay != [] && !(needle <= hay)
    ensures (exists i :: OccursAt(hay, needle, i)) <==> (exists i :: OccursAt(hay[1..], needle, i))
  {
    forall i | OccursAt(hay, needle, i)
      ensures OccursAt(hay[1..], needle, i - 1)
    {
      assert i != 0;
      assert hay[1..][i - 1..i - 1 + |needle|] == hay[i..i + |needle|];
    }
    forall j | OccursAt(hay[1..], needle, j)
      ensures OccursAt(hay, needle, j + 1)
    {
      assert hay[1..][j..j + |needle|] == hay[j + 1..j + 1 + |needle|];
    }
  }

  /** Lower-casing keeps whitespace where it is: two strings that agree once
      lower-cased have whitespace at the same positions. */
  lemma SameSpaces(q: string, q': string)
    requires |q| == |q'|
    requires forall i :: 0 <= i < |q| ==> LowerChar(q[i]) == LowerChar(q'[i])
    ensures forall k :: 0 <= k < |q| ==> (IsSpace(q[k]) <==> IsSpace(q'[k]))
  {
    forall k | 0 <= k < |q|
      ensures IsSpace(q[k]) <==> IsSpace(q'[k])
    {
      LowerCharSpace(q[k]);
      LowerCharSpace(q'[k]);
    }
  }

  lemma LowerSlices(q: string, q': string, n: nat, m: nat)
    requires |q| == |q'| && n <= m <= |q|
    requires forall i :: 0 <= i < |q| ==> LowerChar(q[i]) == LowerChar(q'[i])
    ensures ToLower(q[n..m]) == ToLower(q'[n..m])
  {
    var t, t' := q[n..m], q'[n..m];
    forall k | 0 <= k < |t|
      ensures LowerChar(t[k]) == LowerChar(t'[k])
    {
      assert t[k] == q[n + k] && t'[k] == q'[n + k];
    }
  }

  lemma LowerCharSpace(c: char)
    ensures IsSpace(LowerChar(c)) <==> IsSpace(c)
  {
  }

  /** Lower-casing leaves whitespace exactly where it was. */
  lemma ToLowerKeepsSpaces(s: string)
    ensures forall i :: 0 <= i < |s| ==> (IsSpace(ToLower(s)[i]) <==> IsSpace(s[i]))
  {
    forall i | 0 <= i < |s|
      ensures IsSpace(ToLower(s)[i]) <==> IsSpace(s[i])
    {
      LowerCharSpace(s[i]);
    }
  }

  lemma {:induction false} AllSpaceLeading(s: string)
    requires forall k :: 0 <= k < |s| ==> IsSpace(s[k])
    ensures LeadingSpace(s) == |s|
  {
    if s != [] {
      AllSpaceLeading(s[1..]);
    }
  }

  /** Strings with whitespace at the same positions lose the same prefix to
      `trim`. */
  lemma {:induction false} LeadingSpaceSame(q: string, q': string)
    requires |q| == |q'|
    requires forall k :: 0 <= k < |q| ==> (IsSpace(q[k]) <==> IsSpace(q'[k]))
    ensures LeadingSpace(q) == LeadingSpace(q')
  {
    if q != [] {
      LeadingSpaceSame(q[1..], q'[1..]);
    }
  }

  /** Strings with whitespace at the same positions lose the same suffix to
      `trim`. */
  lemma {:induction false} TrailingCutSame(q: string, q': string)
    requires |q| == |q'|
    requires forall k :: 0 <= k < |q| ==> (IsSpace(q[k]) <==> IsSpace(q'[k]))
    ensures TrailingCut(q) == TrailingCut(q')
  {
    if q != [] {
      TrailingCutSame(q[..|q| - 1], q'[..|q'| - 1]);
    }
  }

  // ---------------------------------------------------------------------------
  // String(n) for an integer n

  predicate IsDigit(c: char) {
    '0' <= c <= '9'
  }

  function DigitChar(d: nat): (c: char)
    requires d < 10
    ensures IsDigit(c) && c as int - '0' as int == d
  {
    ('0' as int + d) as char
  }

  /** Decimal digits of `n`, most significant first, without leading zeros. */
  function NatToString(n: nat): (s: string)
    ensures |s| > 0
    ensures forall i :: 0 <= i < |s| ==> IsDigit(s[i])
    ensures |s| > 1 ==> s[0] != '0'
    decreases n
  {
    if n < 10 then [DigitChar(n)] else NatToString(n / 10) + [DigitChar(n % 10)]
  }

  /** `String(n)` for an integer `n`. */
  function IntToString(n: int): (s: string)
    ensures |s| > 0
    ensures s[0] == '0' ==> s == "0"
    ensures s[0] == '-' ==> n < 0 && |s| > 1 && s[1] != '0'
  {
    if n < 0 then "-" + NatToString(-n) else NatToString(n)
  }

  /** The number a string of decimal digits denotes. */
  function DigitsValue(s: string): nat
    requires forall i :: 0 <= i < |s| ==> IsDigit(s[i])
  {
    if s == [] then 0
    else DigitsValue(s[..|s| - 1]) * 10 + DigitOf(s[|s| - 1])
  }

  function DigitOf(c: char): nat
    requires IsDigit(c)
  {
    c as int - '0' as int
  }

  /** Reads back a string produced by `IntToString`. */
  function ParseInt(s: string): int
    requires s != [] && (s[0] == '-' || IsDigit(s[0]))
    requires forall i :: 1 <= i < |s| ==> IsDigit(s[i])
  {
    if s[0] == '-' then 0 - DigitsValue(s[1..]) else DigitsValue(s)
  }

  lemma {:induction false} NatToStringRoundTrip(n: nat)
    ensures DigitsValue(NatToString(n)) == n
    decreases n
  {
    var s := NatToString(n);
    if n >= 10 {
      NatToStringRoundTrip(n / 10);
      assert s[..|s| - 1] == NatToString(n / 10);
    }
  }

  /** `String` on integers loses nothing: the decimal text reads back as the
      same number, so distinct numeric identifiers have distinct texts. */
  lemma IntToStringRoundTrip(n: int)
    ensures var s := IntToString(n);
            s != [] && (s[0] == '-' || IsDigit(s[0]))
            && (forall i :: 1 <= i < |s| ==> IsDigit(s[i]))
            && ParseInt(s) == n
  {
    if n < 0 {
      NatToStringRoundTrip(-n);
      assert IntToString(n)[1..] == NatToString(-n);
    } else {
      NatToStringRoundTrip(n);
    }
  }

  /** Lower-casing leaves the text of a number as it is, so searching a
      numeric identifier is plain digit matching. */
  lemma IntToStringIsLowerCase(n: int)
    ensures ToLower(IntToString(n)) == IntToString(n)
  {
    var s := IntToString(n);
    assert forall i :: 0 <= i < |s| ==> !IsUpper(s[i]) by {
      forall i | 0 <= i < |s|
        ensures !IsUpper(s[i])
      {
        if n < 0 && i > 0 {
          assert s[i] == NatToString(-n)[i - 1];
        }
      }
    }
  }

  // ---------------------------------------------------------------------------
  // Orders on strings

  /** `cmp(a, b) <= 0` for a comparison that ranks every pair of strings
      consistently, as `localeCompare` does under a fixed locale. */
  ghost predicate TotalPreorder(le: (string, string) -> bool) {
    && (forall a, b :: le(a, b) || le(b, a))
    && (forall a, b, c :: le(a, b) && le(b, c) ==> le(a, c))
  }

  /** Code-point lexicographic order, the order of JavaScript's `<` on
      strings without surrogate pairs. */
  predicate LexLe(a: string, b: string)
    decreases |a|
  {
    a == [] || (b != [] && (a[0] < b[0] || (a[0] == b[0] && LexLe(a[1..], b[1..]))))
  }

  lemma {:induction false} LexLeTotal(a: string, b: string)
    ensures LexLe(a, b) || LexLe(b, a)
    decreases |a|
  {
    if a != [] && b != [] && a[0] == b[0] {
      LexLeTotal(a[1..], b[1..]);
    }
  }

  lemma {:induction false} LexLeTransitive(a: string, b: string, c: string)
    requires LexLe(a, b) && LexLe(b, c)
    ensures LexLe(a, c)
    decreases |a|
  {
    if a != [] && a[0] == b[0] && b[0] == c[0] {
      LexLeTransitive(a[1..], b[1..], c[1..]);
    }
  }

  /** Code-point order is one admissible instance of the comparison the
      dashboard sorts by. */
  lemma LexLeIsTotalPreorder()
    ensures TotalPreorder(LexLe)
  {
    forall a, b
      ensures LexLe(a, b) || LexLe(b, a)
    {
      LexLeTotal(a, b);
    }
    forall a, b, c | LexLe(a, b) && LexLe(b, c)
      ensures LexLe(a, c)
    {
      LexLeTransitive(a, b, c);
    }
  }
}

=== FILE: view_filter.dfy ===
/** The dashboard's derived view (locales-dashboard/src/App.jsx:64-91): a pure
    function of the fetched records and the filter inputs that normalises
    every record, keeps those passing the status, date-range and text
    filters, and sorts the survivors. */
module ViewFilter {
  import opened Optional
  import opened Text
  import opened Emitters
  import opened RowSort

  const StatusActive := "active"
  const StatusInactive := "inactive"
  const MsPerDay := 86_400_000

  /** The filter inputs. `status` is the select's value; a date bound is the
      day number of a non-empty date input, `None` for the empty input. */
  datatype Filters = Filters(q: string, status: string, startDate: Option<int>, endDate: Option<int>)

  /** The initial filter state: empty search, `'all'`, no date bounds. */
  const NoFilters := Filters("", "all", None, None)

  /** `start.setHours(0,0,0,0)`: the first millisecond of day `d`. */
  function DayStart(d: int): (t: int)
    ensures t % MsPerDay == 0 && t / MsPerDay == d
  {
    d * MsPerDay
  }

  /** `end.setHours(23,59,59,999)`: the last millisecond of day `d`. */
  function DayEnd(d: int): (t: int)
    ensures DayStart(d) <= t < DayStart(d + 1)
  {
    DayStart(d) + MsPerDay - 1
  }

  /** `q.trim().toLowerCase()`: no capital letters, no whitespace at either
      end, and empty exactly when the query is blank. */
  function Needle(q: string): (r: string)
    ensures |r| == |Trim(q)| && forall i :: 0 <= i < |r| ==> r[i] == LowerChar(Trim(q)[i])
    ensures |r| <= |q|
    ensures forall i :: 0 <= i < |r| ==> !IsUpper(r[i])
    ensures r != [] ==> !IsSpace(r[0]) && !IsSpace(r[|r| - 1])
    ensures r == [] <==> forall k :: 0 <= k < |q| ==> IsSpace(q[k])
  {
    var t := Trim(q);
    ToLowerKeepsSpaces(t);
    ToLower(t)
  }

  /** The status filter: `'active'` keeps active rows, `'inactive'` inactive
      ones, any other value keeps everything. */
  function StatusKeeps(status: string, r: Row): (b: bool)
    ensures status == StatusActive ==> (b <==> r.isActive)
    ensures status == StatusInactive ==> (b <==> !r.isActive)
    ensures status != StatusActive && status != StatusInactive ==> b
  {
    !(status == StatusActive && !r.isActive) && !(status == StatusInactive && r.isActive)
  }

  /** The date-range filter: without bounds it keeps everything; a kept
      record under a bound has a truthy date inside every bound set. */
  function DateKeeps(start: Option<int>, end: Option<int>, f: FechaAlta): (b: bool)
    ensures start.None? && end.None? ==> b
    ensures b && (start.Some? || end.Some?) ==>
              && Truthy(f)
              && (start.Some? ==> DayStart(start.value) <= f.ms)
              && (end.Some? ==> f.ms <= DayEnd(end.value))
  {
    if start.None? && end.None? then true
    else if !Truthy(f) then false
    else if start.Some? && f.ms < DayStart(start.value) then false
    else if end.Some? && f.ms > DayEnd(end.value) then false
    else true
  }

  /** The text filter: an empty needle keeps everything; a kept row holds the
      needle in its lower-cased identifier text or its lower-cased name. */
  function TextKeeps(needle: string, r: Row): (b: bool)
    ensures needle == "" ==> b
    ensures b && needle != "" ==>
              || (exists i :: OccursAt(ToLower(IdString(r.rec.idEmisor)), needle, i))
              || (NameTruthy(r.rec.name) && exists i :: OccursAt(ToLower(r.rec.name.value), needle, i))
  {
    || needle == ""
    || Includes(ToLower(IdString(r.rec.idEmisor)), needle)
    || (NameTruthy(r.rec.name) && Includes(ToLower(r.rec.name.value), needle))
  }

  /** A row passes all three filters. */
  predicate Passes(f: Filters, r: Row) {
    && StatusKeeps(f.status, r)
    && DateKeeps(f.startDate, f.endDate, r.rec.fechaAlta)
    && TextKeeps(Needle(f.q), r)
  }

  /** `s.filter(p)`. */
  function Select(s: seq<Row>, p: Row -> bool): (r: seq<Row>)
    ensures |r| <= |s|
    ensures multiset(r) <= multiset(s)
    ensures forall x :: x in r <==> x in s && p(x)
    ensures forall x :: multiset(r)[x] == if p(x) then multiset(s)[x] else 0
  {
    if s == [] then []
    else
      assert s == [s[0]] + s[1..];
      if p(s[0]) then [s[0]] + Select(s[1..], p) else Select(s[1..], p)
  }

  /** Filtering a concatenation filters each part and keeps them in order:
      `filter` never reorders what it keeps. */
  lemma {:induction false} SelectAppend(s: seq<Row>, t: seq<Row>, p: Row -> bool)
    ensures Select(s + t, p) == Select(s, p) + Select(t, p)
  {
    if s == [] {
      assert s + t == t;
    } else {
      var x, rest := s[0], s[1..];
      assert s == [x] + rest;
      assert s + t == [x] + (rest + t);
      var h := if p(x) then [x] else [];
      calc {
        Select(s + t, p);
        { SelectCons(x, rest + t, p); }
        h + Select(rest + t, p);
        { SelectAppend(rest, t, p); }
        h + (Select(rest, p) + Select(t, p));
        (h + Select(rest, p)) + Select(t, p);
        { SelectCons(x, rest, p); }
        Select(s, p) + Select(t, p);
      }
    }
  }

  lemma SelectCons(x: Row, s: seq<Row>, p: Row -> bool)
    ensures Select([x] + s, p) == (if p(x) then [x] else []) + Select(s, p)
  {
    var u := [x] + s;
    assert u[0] == x && u[1..] == s;
  }

  /** Two filters in a row are one filter by the conjunction. */
  lemma {:induction false} SelectSelect(s: seq<Row>, p: Row -> bool, q: Row -> bool, pq: Row -> bool)
    requires forall x :: pq(x) == (p(x) && q(x))
    ensures Select(Select(s, p), q) == Select(s, pq)
  {
    if s != [] {
      SelectSelect(s[1..], p, q, pq);
    }
  }

  /** The memoised `filtered` list. */
  function Filtered(items: seq<Emitter>, f: Filters, le: (string, string) -> bool): (r: seq<Row>)
    ensures |r| <= |items|
  {
    var needle := Needle(f.q);
    var rows := NormalizeAll(items);
    var byStatus := Select(rows, (x: Row) => StatusKeeps(f.status, x));
    var byDate := Select(byStatus, (x: Row) => DateKeeps(f.startDate, f.endDate, x.rec.fechaAlta));
    var byText := Select(byDate, (x: Row) => TextKeeps(needle, x));
    SortRows(le, byText)
  }

  /** The three filter passes act as one filter by their conjunction: the
      view is the sort of the normalised records that pass all three, taken
      in their input order. */
  lemma FilteredIsSortedSelection(items: seq<Emitter>, f: Filters, le: (string, string) -> bool)
    ensures Filtered(items, f, le) == SortRows(le, Select(NormalizeAll(items), (x: Row) => Passes(f, x)))
  {
    var needle := Needle(f.q);
    var rows := NormalizeAll(items);
    var p1 := (x: Row) => StatusKeeps(f.status, x);
    var p2 := (x: Row) => DateKeeps(f.startDate, f.endDate, x.rec.fechaAlta);
    var p3 := (x: Row) => TextKeeps(needle, x);
    var p12 := (x: Row) => p1(x) && p2(x);
    SelectSelect(rows, p1, p2, p12);
    SelectSelect(rows, p12, p3, (x: Row) => Passes(f, x));
  }

  /** The view is a permutation of exactly the normalised records that pass
      all three filters. */
  lemma FilteredIsPermutation(items: seq<Emitter>, f: Filters, le: (string, string) -> bool)
    ensures multiset(Filtered(items, f, le)) == multiset(Select(NormalizeAll(items), (x: Row) => Passes(f, x)))
  {
    FilteredIsSortedSelection(items, f, le);
  }

  /** Rows of the view that compare equal keep the order the records had in
      the fetched list. */
  lemma FilteredStable(items: seq<Emitter>, f: Filters, le: (string, string) -> bool, c: Row)
    requires TotalPreorder(le)
    ensures Ties(le, Filtered(items, f, le), c) == Ties(le, Select(NormalizeAll(items), (x: Row) => Passes(f, x)), c)
  {
    FilteredIsSortedSelection(items, f, le);
    SortRowsStable(le, Select(NormalizeAll(items), (x: Row) => Passes(f, x)), c);
  }

  /** A row is shown iff it is an input record, unchanged but for an
      `isActive` that matches its own `fechaAlta`, and it passes every
      filter. */
  lemma FilteredMembers(items: seq<Emitter>, f: Filters, le: (string, string) -> bool, r: Row)
    ensures r in Filtered(items, f, le) <==>
            r.rec in items && r.isActive == IsActive(r.rec.fechaAlta) && Passes(f, r)
  {
    FilteredIsPermutation(items, f, le);
    NormalizeAllMembers(items, r);
    var view := Filtered(items, f, le);
    var kept := Select(NormalizeAll(items), (x: Row) => Passes(f, x));
    assert r in view <==> r in multiset(view);
    assert r in kept <==> r in multiset(kept);
  }

  /** Active rows come first; within one status, identifiers ascend under the
      string comparison. */
  lemma FilteredOrder(items: seq<Emitter>, f: Filters, le: (string, string) -> bool)
    requires TotalPreorder(le)
    ensures var r := Filtered(items, f, le);
            && (forall i, j :: 0 <= i < j < |r| && r[j].isActive ==> r[i].isActive)
            && (forall i, j :: 0 <= i < j < |r| && r[i].isActive == r[j].isActive ==>
                  le(IdString(r[i].rec.idEmisor), IdString(r[j].rec.idEmisor)))
  {
    var needle := Needle(f.q);
    var rows := NormalizeAll(items);
    var byStatus := Select(rows, (x: Row) => StatusKeeps(f.status, x));
    var byDate := Select(byStatus, (x: Row) => DateKeeps(f.startDate, f.endDate, x.rec.fechaAlta));
    var byText := Select(byDate, (x: Row) => TextKeeps(needle, x));
    SortRowsOrder(le, byText);
  }

  /** `'active'` shows only active rows, `'inactive'` only inactive ones, and
      any other status value shows the same list as `'all'`. */
  lemma StatusFilterMeaning(items: seq<Emitter>, f: Filters, le: (string, string) -> bool)
    ensures f.status == StatusActive ==> forall r :: r in Filtered(items, f, le) ==> r.isActive
    ensures f.status == StatusInactive ==> forall r :: r in Filtered(items, f, le) ==> !r.isActive
    ensures f.status != StatusActive && f.status != StatusInactive ==>
            Filtered(items, f, le) == Filtered(items, f.(status := "all"), le)
  {
    forall r | r in Filtered(items, f, le)
      ensures StatusKeeps(f.status, r)
    {
      FilteredMembers(items, f, le, r);
    }
    if f.status != StatusActive && f.status != StatusInactive {
      var rows := NormalizeAll(items);
      SelectAll(rows, (x: Row) => StatusKeeps(f.status, x));
      SelectAll(rows, (x: Row) => StatusKeeps("all", x));
    }
  }

  /** A filter every element passes keeps the whole list. */
  lemma {:induction false} SelectAll(s: seq<Row>, p: Row -> bool)
    requires forall x :: x in s ==> p(x)
    ensures Select(s, p) == s
  {
    if s != [] {
      SelectAll(s[1..], p);
    }
  }

  /** The date filter: with no bound it keeps every record; with a bound it
      drops every falsy `fechaAlta` (`null`, `undefined`, `''`); otherwise a
      date passes iff it lies in the closed interval from the first
      millisecond of the start day to the last millisecond of the end day. */
  lemma DateKeepsMeaning(start: Option<int>, end: Option<int>, f: FechaAlta)
    ensures start.None? && end.None? ==> DateKeeps(start, end, f)
    ensures (start.Some? || end.Some?) && !Truthy(f) ==> !DateKeeps(start, end, f)
    ensures start.Some? && end.Some? && f.Stamp? ==>
            (DateKeeps(start, end, f) <==> DayStart(start.value) <= f.ms <= DayEnd(end.value))
    ensures start.Some? && end.None? && f.Stamp? ==>
            (DateKeeps(start, end, f) <==> DayStart(start.value) <= f.ms)
    ensures start.None? && end.Some? && f.Stamp? ==>
            (DateKeeps(start, end, f) <==> f.ms <= DayEnd(end.value))
  {
  }

  /** Both bounds are inclusive to the millisecond: the first and last
      millisecond of the chosen days pass, one millisecond outside fails. */
  lemma DateBoundsInclusive(d: int, e: int)
    requires d <= e
    ensures DateKeeps(Some(d), Some(e), Stamp(DayStart(d)))
    ensures DateKeeps(Some(d), Some(e), Stamp(DayEnd(e)))
    ensures !DateKeeps(Some(d), Some(e), Stamp(DayStart(d) - 1))
    ensures !DateKeeps(Some(d), Some(e), Stamp(DayEnd(e) + 1))
  {
  }

  /** Once either date bound is set, no row without a truthy date is shown,
      whatever the status and search inputs. */
  lemma BoundedViewHasDates(items: seq<Emitter>, f: Filters, le: (string, string) -> bool)
    requires f.startDate.Some? || f.endDate.Some?
    ensures forall r :: r in Filtered(items, f, le) ==> Truthy(r.rec.fechaAlta) && r.isActive
  {
    forall r | r in Filtered(items, f, le)
      ensures Truthy(r.rec.fechaAlta) && r.isActive
    {
      FilteredMembers(items, f, le, r);
    }
  }

  /** The two readings of `fechaAlta` side by side: a record whose date is
      `undefined` or `''` is listed under `'active'` while no date bound is
      set, and disappears as soon as one is. */
  lemma FalsyButActiveRecord(items: seq<Emitter>, e: Emitter, f: Filters, le: (string, string) -> bool)
    requires e in items
    requires e.fechaAlta == Undefined || e.fechaAlta == EmptyStr
    ensures Normalize(e).isActive
    ensures f.status == StatusActive && f.q == "" && f.startDate.None? && f.endDate.None? ==>
            Normalize(e) in Filtered(items, f, le)
    ensures f.startDate.Some? || f.endDate.Some? ==> Normalize(e) !in Filtered(items, f, le)
  {
    var r := Normalize(e);
    FilteredMembers(items, f, le, r);
    if f.status == StatusActive && f.q == "" && f.startDate.None? && f.endDate.None? {
      assert Needle(f.q) == "" by {
        assert LeadingSpace("") == 0 && TrailingCut("") == 0;
      }
      assert Passes(f, r);
    }
  }

  /** The search: an empty needle keeps every row; otherwise a row is kept
      iff the needle occurs in its lower-cased identifier text or in its
      lower-cased, non-empty name. */
  lemma TextKeepsMeaning(needle: string, r: Row)
    ensures needle == "" ==> TextKeeps(needle, r)
    ensures needle != "" ==>
            (TextKeeps(needle, r) <==>
               || (exists i :: OccursAt(ToLower(IdString(r.rec.idEmisor)), needle, i))
               || (NameTruthy(r.rec.name) && exists i :: OccursAt(ToLower(r.rec.name.value), needle, i)))
  {
  }

  /** A query of whitespace only searches for nothing: the view is the one of
      an empty query. */
  lemma BlankQueryKeepsAll(items: seq<Emitter>, f: Filters, le: (string, string) -> bool)
    requires forall i :: 0 <= i < |f.q| ==> IsSpace(f.q[i])
    ensures Filtered(items, f, le) == Filtered(items, f.(q := ""), le)
  {
    AllSpaceLeading(f.q);
    assert Trim("") == [];
  }

  /** The search ignores letter case in the query: upper-casing any letters
      of `q` gives the same needle. */
  lemma NeedleIgnoresCase(q: string, q': string)
    requires |q| == |q'|
    requires forall i :: 0 <= i < |q| ==> LowerChar(q[i]) == LowerChar(q'[i])
    ensures Needle(q) == Needle(q')
  {
    SameSpaces(q, q');
    LeadingSpaceSame(q, q');
    TrailingCutSame(q, q');
    var n, m := LeadingSpace(q), TrailingCut(q);
    if n < m {
      LowerSlices(q, q', n, m);
    }
  }

  /** An example of a search: `"abc"` finds the identifier `"ABC123"`
      and the name `"abcd"`, and nothing in `"XYZ"`. A record without an
      identifier is found by searching for `"undefined"`, the text `String`
      gives it. */
  lemma SearchExample()
    ensures Needle("abc") == "abc"
    ensures TextKeeps("abc", Row(Emitter(IdText("ABC123"), None, Null), false))
    ensures TextKeeps("abc", Row(Emitter(IdNumber(7), Some("abcd"), Null), false))
    ensures !TextKeeps("abc", Row(Emitter(IdText("XYZ"), Some("xyz"), Null), false))
    ensures TextKeeps("fine", Row(Emitter(IdUndefined, None, Null), false))
  {
    assert LeadingSpace("abc") == 0 && TrailingCut("abc") == 3;
    assert ToLower("ABC123") == "abc123";
    assert OccursAt("abc123", "abc", 0);
    assert OccursAt("abcd", "abc", 0);
    assert ToLower("XYZ") == "xyz";
    assert ToLower("undefined") == "undefined";
    assert OccursAt("undefined", "fine", 4);
  }
}
